=== FILE: README.md ===
# dialog-flow-hub, modelled in Dafny

A model of the client-side logic of a chat application. The application is
a React front-end over a hosted Postgres store (tables `users`, `chats` and
`messages`) and a chat-completion service. The model covers:

- the send turn of the open conversation (`ChatInterface.tsx`): the
  optimistic user entry, the waiting assistant entry, reconciliation by
  id, the rollback on failure, and the writes issued;
- deleting and loading messages;
- the password rules and the check order of the sign-in form (`AuthForm.tsx`);
- the administration console (`Admin.tsx`): the search and status filter,
  the per-user updates, the three-step deletion, the edit dialog's status
  normalisation, and which action buttons a row offers;
- the conversation list (`ChatSidebar.tsx`): search, reload on change,
  deletion and the next selection;
- what the chat page decides when it mounts (`Chat.tsx`): the session and
  profile checks, the blocked-account gate, the default username, the
  stored API key, and which conversation to open or create. It also
  covers conversation creation and saving the API key.

Every remote call is an input: the model takes its outcome (failed,
succeeded with a row, succeeded with no row) as a parameter. Operations are
pure functions from the state before and those outcomes to the state after,
plus the list of calls issued. The modules are:

- `Wrappers`: `Option` and `Result`.
- `Text`: the string functions the code relies on. These are `trim`,
  `includes`, `toLowerCase`, UTF-16 `length`, `split(sep)[0]` and
  `Date.now().toString()`.
- `Lists`: `filter` and an id-keyed `map`, with order-preservation
  (`Subseq`) and multiset contracts.
- `Schema`: the rows of `supabase.ts` and the outcomes of remote calls.
- `Conversation`, `AuthForm`, `Admin`, `Sidebar`, `ChatPage`: one module per
  source file.

Three facts about the send turn shape its model. The waiting assistant
entry is appended only after the user insert returns. A reply stored
without a returned row keeps its waiting entry's `temp-` id. The rollback
on failure removes every entry whose id starts with `temp-`, not only the
turn's own waiting entry (see Findings).

## Model

| member | source | states |
|---|---|---|
| `Text.Trim` | src/components/chat/ChatInterface.tsx:59-61 | the result occurs in the input with only whitespace around it, has no whitespace at either end, and is empty exactly when the input is all whitespace |
| `Text.TrimIdempotent` | src/pages/Chat.tsx:160-161 | trimming a trimmed string changes nothing, so the stored key is already trimmed |
| `Text.Contains` | src/pages/Admin.tsx:288-289 | `includes` holds exactly when the needle occurs at some position of the haystack |
| `Text.ContainsEmpty` | src/components/chat/ChatSidebar.tsx:168-172 | every string contains the empty query |
| `Text.Lower` | src/pages/Admin.tsx:288 | lowercasing keeps the length and maps every character through the ASCII case mapping |
| `Text.Utf16Length` | src/components/auth/AuthForm.tsx:24 | the length in UTF-16 code units lies between the number of characters and twice that |
| `Text.Before` | src/pages/Chat.tsx:61 | `split('@')[0]`: a prefix of the address without `@`, followed by `@` whenever it is shorter than the address |
| `Text.DecimalString` | src/components/chat/ChatInterface.tsx:66 | `Date.now().toString()` is a non-empty string of decimal digits |
| `Text.DecimalRoundTrip` | src/components/chat/ChatInterface.tsx:66 | reading back the digits gives the number |
| `Text.DecimalInjective` | src/components/chat/ChatInterface.tsx:99 | distinct instants give distinct decimal strings |
| `Lists.Filter` | src/components/chat/ChatInterface.tsx:205 | `filter` keeps exactly the kept entries, each as often as before, in their original order, and returns the list unchanged when every entry is kept |
| `Lists.FilterAppend` | src/components/chat/ChatInterface.tsx:182 | filtering distributes over concatenation |
| `Lists.UpdateWhere` | src/pages/Admin.tsx:137-139 | the id-keyed `map` keeps every position: matching entries are rewritten, the others are untouched |
| `Lists.UpdateWhereMiss` | src/components/chat/ChatInterface.tsx:93-95 | a `map` that matches nothing returns the same list |
| `Schema.Refresh` | src/components/chat/ChatSidebar.tsx:46-63 | `loadChats`: a failed read keeps the list, a read answering `null` empties it, and any other read replaces it |
| `Conversation.ProvisionalId` | src/components/chat/ChatInterface.tsx:66 | the optimistic entry's id starts with a digit, so it is never a `temp-` id |
| `Conversation.PlaceholderId` | src/components/chat/ChatInterface.tsx:99 | the waiting entry's id starts with `temp-` and never equals any optimistic id |
| `Conversation.PlaceholderIdInjective` | src/components/chat/ChatInterface.tsx:99 | waiting entries minted at different instants have different ids |
| `Conversation.Reconcile` | src/components/chat/ChatInterface.tsx:93-95 | exactly the entries carrying the id become the stored row; with no such entry the list is unchanged |
| `Conversation.ReconcileIdempotent` | src/components/chat/ChatInterface.tsx:159-161 | reconciling twice with the same row is reconciling once |
| `Conversation.ReconcileLast` | src/components/chat/ChatInterface.tsx:93-95 | when no other entry carries the last entry's id, reconciling it replaces just that entry |
| `Conversation.PatchContent` | src/components/chat/ChatInterface.tsx:164-168 | only the text of the entries carrying the id changes; ids, conversation, role and time stay |
| `Conversation.PatchLast` | src/components/chat/ChatInterface.tsx:164-168 | patching the last entry changes only its text |
| `Conversation.DropTemp` | src/components/chat/ChatInterface.tsx:182 | no `temp-` entry is left, every other entry stays as often as before and in order, and a list without `temp-` entries is unchanged |
| `Conversation.DropTempAppend` | src/components/chat/ChatInterface.tsx:182 | the rollback distributes over concatenation |
| `Conversation.DropTempSingle` | src/components/chat/ChatInterface.tsx:182 | a one-entry list keeps its entry exactly when its id is not `temp-` |
| `Conversation.History` | src/components/chat/ChatInterface.tsx:111-119 | the request is every entry of the list before the send, as role and content, then the new text as a user turn |
| `Conversation.TurnWrites` | src/components/chat/ChatInterface.tsx:79-177 | at most three writes: the user message first; the reply, with the completion's text, second exactly when the user insert and the completion succeeded; then the conversation's touch, exactly when the reply insert succeeded too |
| `Conversation.AwaitingReply` | src/components/chat/ChatInterface.tsx:75-108 | with fresh ids, the list while waiting is the old list plus the user entry and the waiting entry |
| `Conversation.Settle` | src/components/chat/ChatInterface.tsx:158-183 | a failed completion or reply insert removes exactly the `temp-` entries and keeps every other entry, as often as before and in order; otherwise only the entries carrying the waiting id change, becoming the stored reply row or getting the reply text |
| `Conversation.TurnMessages` | src/components/chat/ChatInterface.tsx:75-183 | as written: a failed user insert leaves the old list minus its `temp-` entries, then the optimistic entry |
| `Conversation.SendTurn` | src/components/chat/ChatInterface.tsx:58-192 | a refused guard changes nothing and sends nothing. Past the guard, the input is cleared and loading ends. The completion request goes out exactly when the user insert did not fail, and holds the history before the send. The list is settled as written: a failed user insert leaves the old list minus its `temp-` entries, followed by the optimistic entry. The writes are those of `Conversation.TurnWrites`: the user message, then the reply once the completion arrived, then the conversation's touch once the reply is stored |
| `Conversation.SendTurnFixed` | src/components/chat/ChatInterface.tsx:58-192 | the send handler with the intended rollback: the same guard, request and writes, and a failed user insert leaves the old list untouched followed by the optimistic entry |
| `Conversation.TurnStoresBothRows` | src/components/chat/ChatInterface.tsx:92-160 | a fully successful turn whose reply row came back leaves the old list followed by the user entry (the stored user row, or the optimistic entry when none came back) and the stored reply row |
| `Conversation.TurnKeepsWaitingEntry` | src/components/chat/ChatInterface.tsx:163-169 | whether or not the user row came back, when no reply row does, the waiting entry stays last with its `temp-` id and the reply text, after the user entry |
| `Conversation.TurnRollsBackReply` | src/components/chat/ChatInterface.tsx:180-183 | a failure after the user insert succeeded, with or without a row, leaves the old list minus its `temp-` entries, then the user entry |
| `Conversation.TurnMessagesFixed` | src/components/chat/ChatInterface.tsx:180-183 | with the intended rollback, a failure at any stage leaves the old list untouched, followed by the user entry |
| `Conversation.RemoveLast` | src/components/chat/ChatInterface.tsx:205 | when no other entry carries the last entry's id, removing that id gives back the list before it |
| `Conversation.RollbackAgreesWithoutTempEntries` | src/components/chat/ChatInterface.tsx:180-183 | after the user row was stored, on a list with no `temp-` entry the written rollback removes only the turn's waiting entry, as intended |
| `Conversation.FixedAgreesWithoutTempEntries` | src/components/chat/ChatInterface.tsx:75-183 | on a list with no `temp-` entry, the written and the intended rollback leave the same list on every path |
| `Conversation.EarlierReplyLost` | src/components/chat/ChatInterface.tsx:182 | as written, a failed turn deletes an earlier reply that kept its `temp-` id |
| `Conversation.EarlierReplyKept` | src/components/chat/ChatInterface.tsx:182 | the intended rollback keeps that reply |
| `Conversation.EarlierReplyLostOnFailedInsert` | src/components/chat/ChatInterface.tsx:182 | as written, a failed user insert deletes that earlier reply too, while the intended rollback keeps it |
| `Conversation.DeleteMessage` | src/components/chat/ChatInterface.tsx:194-219 | a confirmed delete removes every entry with the id and keeps the rest, as often as before and in order; a failed one changes nothing |
| `Conversation.LoadMessages` | src/components/chat/ChatInterface.tsx:25-49 | with no conversation nothing happens; otherwise a successful read replaces the list and a failed one keeps it |
| `AuthForm.ValidatePassword` | src/components/auth/AuthForm.tsx:23-65 | valid exactly when all five rules hold, with a message exactly when invalid, and the message is that of the first failing rule in the order length, upper case, lower case, digit, special |
| `AuthForm.AstralCharactersCountTwice` | src/components/auth/AuthForm.tsx:24 | four characters outside the Basic Multilingual Plane meet the eight-unit length rule |
| `AuthForm.Submit` | src/components/auth/AuthForm.tsx:67-148 | login and reset go straight to their call. Registration refuses a missing username first, then a weak password with the rule's message, then a mismatched confirmation, which is refused with the mismatch message exactly when the first two checks pass and the confirmation differs. It signs up exactly when all three checks pass |
| `AuthForm.ModeAfter` | src/components/auth/AuthForm.tsx:137-147 | the mode changes only after a successful reset request, and then to login |
| `Admin.FilterUsers` | src/pages/Admin.tsx:286-294 | exactly the users whose username or email contains the query, ignoring case, and whose status equals the chosen filter, in table order; everyone when neither is set |
| `Admin.LoadUsers` | src/pages/Admin.tsx:104-125 | a successful read replaces the table and a failed one keeps it |
| `Admin.SetStatus` | src/pages/Admin.tsx:127-157 | once stored, only the matching users' status changes; no other field and no other user |
| `Admin.SetAdmin` | src/pages/Admin.tsx:159-185 | once stored, only the matching users' administrator flag changes |
| `Admin.Normalise` | src/pages/Admin.tsx:235-239 | a known status is kept and any other text becomes active |
| `Admin.NormaliseText` | src/pages/Admin.tsx:235-239 | every known status survives the round trip through its text |
| `Admin.OpenEdit` | src/pages/Admin.tsx:230-242 | the dialog opens on the user's username, email and flag, and its normalised status |
| `Admin.SaveEdit` | src/pages/Admin.tsx:244-284 | with no target or a refused update nothing changes. Otherwise the target's username, email, status and flag become the dialog's, every other user is untouched, and the dialog closes |
| `Admin.SaveUntouchedEdit` | src/pages/Admin.tsx:230-269 | saving an untouched dialog leaves the table unchanged, except that an unknown status is written back as active |
| `Admin.DeleteUser` | src/pages/Admin.tsx:187-228 | the user's messages, chats and row are deleted in that order, and the first failure stops the chain. Only full success removes the user; everyone else stays, in order |
| `Admin.ActionsFor` | src/pages/Admin.tsx:416-457 | activate unless active, block unless blocked, so at least one of them; exactly one of grant and revoke |
| `Admin.StatusButtonWithdrawn` | src/pages/Admin.tsx:416-436 | a stored activate or block hides the button used and shows the other |
| `Sidebar.FilteredChats` | src/components/chat/ChatSidebar.tsx:168-172 | an empty query lists everything; otherwise exactly the conversations whose title contains the query, ignoring case, in order |
| `Sidebar.Replay` | src/components/chat/ChatSidebar.tsx:66-78 | when every reload fails, the list stays as it was |
| `Sidebar.ReplayKeepsLastSuccess` | src/components/chat/ChatSidebar.tsx:69-78 | after any sequence of change notifications the list equals the last successful read, or the starting list when none succeeded |
| `Sidebar.DeleteChat` | src/components/chat/ChatSidebar.tsx:102-147 | messages are deleted before the conversation, and a failure changes neither list nor selection. On success the conversation leaves the list. The selection moves exactly when the deleted conversation was shown: to the first remaining one, or to a new one when none remain |
| `Sidebar.DeletedChatNotShown` | src/components/chat/ChatSidebar.tsx:126-133 | the conversation shown next is one that was in the list and still is |
| `Sidebar.AfterNewChat` | src/components/chat/ChatSidebar.tsx:85-91 | creation selects the row it returns before the handler tests the id, so the new conversation is shown whenever creation answered, even with an empty id; a failed creation leaves the selection alone |
| `ChatPage.DefaultUsername` | src/pages/Chat.tsx:61 | the registration username when non-empty, else the address up to its first `@` |
| `ChatPage.UsernameFromEmail` | src/pages/Chat.tsx:61 | `name@domain` gives `name` |
| `ChatPage.NewProfile` | src/pages/Chat.tsx:56-65 | the drafted profile is active, not an administrator, and carries the account's id, email and default username; `ChatPage.Mount` states that a missing profile is inserted as this draft |
| `ChatPage.LatestChat` | src/pages/Chat.tsx:95-100 | at most one row; none exactly when the user has no conversation; otherwise one of theirs that no other of theirs was updated after |
| `ChatPage.CreateChat` | src/pages/Chat.tsx:126-157 | without a user id it fails before any call. Otherwise it inserts "Nueva conversación" for that user, with both timestamps at the same instant. It succeeds exactly when the store hands back a row, answering that row's id |
| `ChatPage.OpenConversation` | src/pages/Chat.tsx:95-109 | only the selection and the loading flag of the page change; a failed read leaves for the sign-in screen; a user with conversations opens the most recent one |
| `ChatPage.LoadKey` | src/pages/Chat.tsx:86-92 | a non-empty stored key is loaded; otherwise the key dialog opens |
| `ChatPage.Mount` | src/pages/Chat.tsx:25-124 | loading always ends; without a session, or on a profile read error other than `PGRST116`, the only effect is leaving for the sign-in screen; a missing profile is inserted first as `NewProfile(..)` of the account, and a refused insert then leaves; no other profile insert is issued; a found profile sets the administrator flag; a mount that gets past the profile checks loads the saved key or opens the key dialog; one that does not leaves for the sign-in screen with nothing selected |
| `ChatPage.CheckAuthAsWritten` | src/pages/Chat.tsx:26-108 | as written, with creation running on the first render's null user id: loading ends, and no session means the sign-in screen |
| `ChatPage.CheckAuth` | src/pages/Chat.tsx:26-124 | corrected: the page's user is the session's, loading ends, and no session means the sign-in screen |
| `ChatPage.BlockedIsSignedOut` | src/pages/Chat.tsx:69-83 | for the mount as written and the corrected one alike, a blocked account is signed out and sent to the sign-in screen with no conversation selected, and its administrator flag is recorded |
| `ChatPage.LandingSelectsOrLeaves` | src/pages/Chat.tsx:94-117 | for the mount as written and the corrected one alike, a mount that does not leave for the sign-in screen has a conversation selected |
| `ChatPage.FirstChatNeverCreated` | src/pages/Chat.tsx:107-108 | as written, every sign-in that needs a first conversation leaves for the sign-in screen without inserting one |
| `ChatPage.FirstChatCreated` | src/pages/Chat.tsx:126-144 | with the session's user id, the same sign-in inserts the conversation and opens it |
| `ChatPage.NewAccountScenario` | src/pages/Chat.tsx:50-68 | a brand-new account with no profile and no conversation gets through every check before creation |
| `ChatPage.NewAccountBounced` | src/pages/Chat.tsx:107-108 | that account is bounced as written and lands on its new conversation when corrected |
| `ChatPage.SaveApiKey` | src/pages/Chat.tsx:159-174 | a key that is not blank is stored trimmed and the dialog closes; a blank one changes nothing; the text typed stays as typed |
| `ChatPage.SavedKeyReloads` | src/pages/Chat.tsx:86-92 | a key saved in the dialog is loaded, trimmed, on the next mount, and the dialog does not open |

## Left out

- Remote calls: the store, the authentication service and the completion service are not modelled. Their outcomes are inputs. Transport errors, response parsing and the completion service's sampling settings (model `gpt-4o`, temperature 0.7, 2048 tokens) are left out.
- The browser's local storage appears only as the stored key's value (`Option<string>`).
- Rendering, toasts, scrolling, routing and date formatting are left out; leaving for the sign-in screen is an effect.
- Concurrency: each handler runs to completion on one state. Interleaved handlers are not modelled. React's batching of state updates is not modelled. Neither is the stale `chats` closure of `handleDeleteChat` (its `remainingChats` comes from the render's list, its `setChats` from the latest one).
- Switching conversation while a turn is in flight is not modelled; the handler does not check for it either.
- `Text.Lower`: maps only ASCII letters; the Unicode case mapping of `toLowerCase` is not modelled.
- Ids and timestamps are opaque. `Date.now()` is a natural number, `toISOString()` a timestamp. Row ids come from the store.
- `ChatPage.CreateChat`: takes one instant for both `created_at` and `last_updated`, where the source reads the clock twice.
- The result of the update of the conversation's `last_updated` at the end of a turn is ignored by the source; the model records the write only.
- The admin page's own access check (`checkAdmin`) and the sign-out buttons are not part of this model.
- Routing and page shells (`src/App.tsx`, `src/pages/Auth.tsx`, `src/pages/Index.tsx`), message rendering and copying (`src/components/chat/ChatMessage.tsx`) and `src/components/auth/LogoutButton.tsx` are user interface or session plumbing and are not part of this model.
- The Enter-to-send key handler of the message box only calls the send handler, so it is not modelled separately.
- Realtime subscription and unsubscription are not modelled; each change notification is one more read in `Sidebar.Replay`.
- `Schema.Refresh` does not model the store's `order('last_updated')` ordering: rows are taken in the order returned.

## Findings

| source | as written | input that shows it | evidently intended | confidence | as-written member | corrected member |
|---|---|---|---|---|---|---|
| src/components/chat/ChatInterface.tsx:182 | any failure of a turn, the user insert included, drops every entry whose id starts with `temp-` | an earlier reply whose row was not returned keeps id `temp-2`; the next turn's completion or user insert fails; the earlier reply disappears from the list | remove only this turn's waiting entry | not executed | `Conversation.EarlierReplyLost`, `Conversation.EarlierReplyLostOnFailedInsert` | `Conversation.TurnMessagesFixed`, `Conversation.SendTurnFixed` |
| src/pages/Chat.tsx:107-108 | the mount handler calls `createNewChat` from the first render, where `userId` is still `null` | a new account with no conversation: creation fails with "Usuario no autenticado", the page leaves for the sign-in screen, and that screen sends a signed-in user back | create the first conversation for the session's user | not executed | `ChatPage.FirstChatNeverCreated` | `ChatPage.CheckAuth` |

=== FILE: admin.dfy ===
/** The administration console (`Admin`): the user table's search and
    status filter, the per-user updates applied to the local list once the
    store accepts them, the three-step account deletion, the edit dialog and
    the row's action buttons. */
module Admin {
  import opened Wrappers
  import opened Text
  import opened Lists
  import opened Schema

  /** The search box and status filter: the query is found, ignoring case,
      in the username or in the email, and the status equals the filter
      when one is chosen. */
  predicate Matches(u: User, query: string, filter: Option<Status>) {
    && (ContainsIgnoringCase(u.username, query) || ContainsIgnoringCase(u.email, query))
    && (filter.None? || u.status == filter.value.Text())
  }

  /** `filteredUsers`: exactly the matching users, in table order. */
  function FilterUsers(users: seq<User>, query: string, filter: Option<Status>): (r: seq<User>)
    ensures forall i | 0 <= i < |r| :: Matches(r[i], query, filter)
    ensures forall u {:trigger multiset(r)[u]} | Matches(u, query, filter) :: multiset(r)[u] == multiset(users)[u]
    ensures Subseq(r, users)
    ensures query == [] && filter.None? ==> r == users
  {
    assert query == [] && filter.None? ==> forall i | 0 <= i < |users| :: Matches(users[i], query, filter) by {
      if query == [] {
        forall i | 0 <= i < |users|
          ensures ContainsIgnoringCase(users[i].username, query)
        {
          ContainsEmpty(Lower(users[i].username));
        }
      }
    }
    Filter(users, (u: User) => Matches(u, query, filter))
  }

  /** `loadUsers`: the table is replaced by a successful read and kept on a failed one. */
  function LoadUsers(users: seq<User>, fetch: Fetch<User>): (r: seq<User>)
    ensures fetch.FetchFailed? ==> r == users
    ensures fetch.Fetched? ==> r == fetch.data.GetOr([])
  {
    Refresh(users, fetch)
  }

  /** `handleStatusChange`, once the store accepted it: the matching user's
      status becomes the new one; no other field and no other user changes. */
  function SetStatus(users: seq<User>, id: string, status: Status, stored: bool): (r: seq<User>)
    ensures |r| == |users|
    ensures forall i | 0 <= i < |users| :: r[i].(status := users[i].status) == users[i]
    ensures forall i | 0 <= i < |users| ::
              r[i].status == if stored && users[i].id == id then status.Text() else users[i].status
  {
    if !stored then users
    else UpdateWhere(users, (u: User) => u.id == id, (u: User) => u.(status := status.Text()))
  }

  /** `handleAdminToggle`, once the store accepted it: only the matching
      user's administrator flag changes. */
  function SetAdmin(users: seq<User>, id: string, makeAdmin: bool, stored: bool): (r: seq<User>)
    ensures |r| == |users|
    ensures forall i | 0 <= i < |users| :: r[i].(isAdmin := users[i].isAdmin) == users[i]
    ensures forall i | 0 <= i < |users| ::
              r[i].isAdmin == if stored && users[i].id == id then makeAdmin else users[i].isAdmin
  {
    if !stored then users
    else UpdateWhere(users, (u: User) => u.id == id, (u: User) => u.(isAdmin := makeAdmin))
  }

  /** `handleEditUser`'s treatment of the stored status: a known status is
      kept, anything else is shown as active. */
  function Normalise(raw: string): (s: Status)
    ensures raw in {"active", "pending", "blocked"} ==> s.Text() == raw
    ensures raw !in {"active", "pending", "blocked"} ==> s == Active
  {
    if raw == "pending" then Pending
    else if raw == "blocked" then Blocked
    else Active
  }

  /** A known status survives the round trip through its text. */
  lemma NormaliseText(s: Status)
    ensures Normalise(s.Text()) == s
  {
  }

  /** The edit dialog: the user being edited and the values of its fields. */
  datatype EditDialog = EditDialog(target: Option<User>, username: string, email: string, status: Status, isAdmin: bool, open: bool)

  /** `handleEditUser`: the dialog opens on a copy of the user's fields,
      with the status normalised. */
  function OpenEdit(d: EditDialog, u: User): (r: EditDialog)
    ensures r.open && r.target == Some(u)
    ensures r.username == u.username && r.email == u.email && r.isAdmin == u.isAdmin
    ensures r.status == Normalise(u.status)
  {
    EditDialog(Some(u), u.username, u.email, Normalise(u.status), u.isAdmin, true)
  }

  /** `handleSaveEdit`: with no user being edited nothing happens; once the
      store accepts the update, the edited user gets exactly the dialog's
      username, email, status and flag, and the dialog closes; on a refused
      update both list and dialog stay as they are. */
  function SaveEdit(users: seq<User>, d: EditDialog, stored: bool): (r: (seq<User>, EditDialog))
    ensures d.target.None? || !stored ==> r == (users, d)
    ensures |r.0| == |users|
    ensures forall i | 0 <= i < |users| && (d.target.None? || !stored || users[i].id != d.target.value.id) :: r.0[i] == users[i]
    ensures forall i | 0 <= i < |users| && d.target.Some? && stored && users[i].id == d.target.value.id ::
              r.0[i] == users[i].(username := d.username, email := d.email, status := d.status.Text(), isAdmin := d.isAdmin)
    ensures d.target.Some? && stored ==> r.1 == d.(open := false)
  {
    if d.target.None? || !stored then (users, d)
    else
      var id := d.target.value.id;
      var edited := UpdateWhere(users, (u: User) => u.id == id,
                                (u: User) => u.(username := d.username, email := d.email, status := d.status.Text(), isAdmin := d.isAdmin));
      (edited, d.(open := false))
  }

  predicate UniqueIds(users: seq<User>) {
    forall i, j | 0 <= i < j < |users| :: users[i].id != users[j].id
  }

  /** Opening the dialog on a user and saving it untouched changes nothing
      when the user's status is a known one, and turns any other status into
      active: the normalisation is written back. */
  lemma SaveUntouchedEdit(users: seq<User>, d: EditDialog, k: int)
    requires UniqueIds(users) && 0 <= k < |users|
    ensures var r := SaveEdit(users, OpenEdit(d, users[k]), true).0;
            && (users[k].status in {"active", "pending", "blocked"} ==> r == users)
            && (users[k].status !in {"active", "pending", "blocked"} ==> r == users[k := users[k].(status := "active")])
  {
  }

  /** The store deletions account removal issues, in order. */
  datatype Purge = PurgeMessages(userId: string) | PurgeChats(userId: string) | PurgeUser(userId: string)

  /** `handleDeleteUser`: the user's messages, then chats, then the user row
      are deleted; the first refusal stops the chain and leaves the table
      alone. Only after all three succeed is the user filtered out of it. */
  function DeleteUser(users: seq<User>, id: string, messagesOk: bool, chatsOk: bool, userOk: bool): (r: (seq<Purge>, seq<User>))
    ensures var calls := r.0;
            && 1 <= |calls| <= 3
            && calls == [PurgeMessages(id), PurgeChats(id), PurgeUser(id)][..|calls|]
            && |calls| == (if !messagesOk then 1 else if !chatsOk then 2 else 3)
    ensures !(messagesOk && chatsOk && userOk) ==> r.1 == users
    ensures messagesOk && chatsOk && userOk ==>
              && (forall i | 0 <= i < |r.1| :: r.1[i].id != id)
              && (forall u: User {:trigger multiset(r.1)[u]} | u.id != id :: multiset(r.1)[u] == multiset(users)[u])
              && Subseq(r.1, users)
  {
    if !messagesOk then ([PurgeMessages(id)], users)
    else if !chatsOk then ([PurgeMessages(id), PurgeChats(id)], users)
    else
      var calls := [PurgeMessages(id), PurgeChats(id), PurgeUser(id)];
      if !userOk then (calls, users)
      else (calls, Filter(users, (u: User) => u.id != id))
  }

  /** The buttons a table row offers. Edit and delete are always there. */
  datatype Actions = Actions(activate: bool, block: bool, grantAdmin: bool, revokeAdmin: bool)

  /** Activate unless already active, block unless already blocked, and
      exactly one of grant or revoke administrator. */
  function ActionsFor(u: User): (a: Actions)
    ensures a.activate <==> u.status != "active"
    ensures a.block <==> u.status != "blocked"
    ensures a.activate || a.block
    ensures a.grantAdmin <==> !u.isAdmin
    ensures a.grantAdmin != a.revokeAdmin
  {
    Actions(u.status != "active", u.status != "blocked", !u.isAdmin, u.isAdmin)
  }

  /** Using a status button the row offers, once stored, withdraws that
      button and offers the other one. */
  lemma StatusButtonWithdrawn(users: seq<User>, k: int, target: Status)
    requires 0 <= k < |users| && target in {Active, Blocked}
    ensures var after := SetStatus(users, users[k].id, target, true)[k];
            && (target == Active ==> !ActionsFor(after).activate && ActionsFor(after).block)
            && (target == Blocked ==> ActionsFor(after).activate && !ActionsFor(after).block)
  {
  }
}

=== FILE: authform.dfy ===
/** The sign-in form (`AuthForm`): the password strength rules and the
    order in which a submission is checked before any remote call. */
module AuthForm {
  import opened Wrappers
  import opened Text

  const MinLength := 8

  const TooShort := "La contraseña debe tener al menos 8 caracteres"
  const NeedsUpper := "Debe contener al menos una letra mayúscula"
  const NeedsLower := "Debe contener al menos una letra minúscula"
  const NeedsDigit := "Debe contener al menos un número"
  const NeedsSpecial := "Debe contener al menos un carácter especial"

  const UsernameRequired := "El nombre de usuario es obligatorio"
  const Mismatch := "Las contraseñas no coinciden"

  /** The characters of the class `[!@#$%^&*(),.?":{}|<>]`. */
  const Specials := "!@#$%^&*(),.?\":{}|<>"

  /** The strength rules, in the order they are checked. */
  datatype Rule = Length | Uppercase | Lowercase | Digit | Special

  const RuleOrder: seq<Rule> := [Length, Uppercase, Lowercase, Digit, Special]

  predicate IsUpper(c: char) { 'A' <= c <= 'Z' }
  predicate IsLower(c: char) { 'a' <= c <= 'z' }
  predicate IsSpecial(c: char) { c in Specials }

  /** What each rule demands: `password.length` counts UTF-16 code units,
      and each character class is tested anywhere in the password. */
  predicate Satisfies(rule: Rule, p: string) {
    match rule
    case Length => Utf16Length(p) >= MinLength
    case Uppercase => exists i | 0 <= i < |p| :: IsUpper(p[i])
    case Lowercase => exists i | 0 <= i < |p| :: IsLower(p[i])
    case Digit => exists i | 0 <= i < |p| :: IsDigit(p[i])
    case Special => exists i | 0 <= i < |p| :: IsSpecial(p[i])
  }

  function MessageOf(rule: Rule): string {
    match rule
    case Length => TooShort
    case Uppercase => NeedsUpper
    case Lowercase => NeedsLower
    case Digit => NeedsDigit
    case Special => NeedsSpecial
  }

  /** `{ isValid, message? }` as `validatePassword` returns it. */
  datatype Verdict = Verdict(isValid: bool, message: Option<string>)

  /** `validatePassword`: the password passes when every rule holds;
      otherwise the message is that of the first rule, in order, that fails. */
  function ValidatePassword(p: string): (v: Verdict)
    ensures v.isValid <==> forall k | 0 <= k < |RuleOrder| :: Satisfies(RuleOrder[k], p)
    ensures v.isValid <==> v.message.None?
    ensures !v.isValid ==>
              exists k | 0 <= k < |RuleOrder| ::
                && !Satisfies(RuleOrder[k], p)
                && (forall j | 0 <= j < k :: Satisfies(RuleOrder[j], p))
                && v.message == Some(MessageOf(RuleOrder[k]))
    ensures Utf16Length(p) < MinLength ==> v.message == Some(TooShort)
  {
    if Utf16Length(p) < 8 then
      assert !Satisfies(RuleOrder[0], p);
      Verdict(false, Some(TooShort))
    else
      var hasUppercase := exists i | 0 <= i < |p| :: IsUpper(p[i]);
      var hasLowercase := exists i | 0 <= i < |p| :: IsLower(p[i]);
      var hasNumber := exists i | 0 <= i < |p| :: IsDigit(p[i]);
      var hasSpecialChar := exists i | 0 <= i < |p| :: IsSpecial(p[i]);
      assert Satisfies(RuleOrder[0], p);
      if !hasUppercase then
        assert !Satisfies(RuleOrder[1], p);
        Verdict(false, Some(NeedsUpper))
      else if !hasLowercase then
        assert !Satisfies(RuleOrder[2], p);
        Verdict(false, Some(NeedsLower))
      else if !hasNumber then
        assert !Satisfies(RuleOrder[3], p);
        Verdict(false, Some(NeedsDigit))
      else if !hasSpecialChar then
        assert !Satisfies(RuleOrder[4], p);
        Verdict(false, Some(NeedsSpecial))
      else
        Verdict(true, None)
  }

  /** The length rule counts UTF-16 code units: four characters from
      outside the Basic Multilingual Plane already reach the minimum. */
  lemma AstralCharactersCountTwice()
    ensures Satisfies(Length, "\U{1F600}\U{1F600}\U{1F600}\U{1F600}")
  {
  }

  datatype Mode = Login | Register | Reset

  datatype Form = Form(mode: Mode, email: string, password: string, confirm: string, username: string)

  /** What a submission does: refuse with a message, or make one remote call. */
  datatype Step =
    | Refuse(message: string)
    | SignUp(email: string, password: string, username: string)
    | SignIn(email: string, password: string)
    | SendReset(email: string)

  /** `handleSubmit` up to its remote call. Only registration validates:
      first the username, then the strength rules, then the confirmation. */
  function Submit(f: Form): (s: Step)
    ensures f.mode == Login ==> s == SignIn(f.email, f.password)
    ensures f.mode == Reset ==> s == SendReset(f.email)
    ensures f.mode == Register && f.username == [] ==> s == Refuse(UsernameRequired)
    ensures f.mode == Register && f.username != [] && !ValidatePassword(f.password).isValid ==>
              s == Refuse(ValidatePassword(f.password).message.value)
    ensures s.SignUp? <==>
              f.mode == Register && f.username != [] && ValidatePassword(f.password).isValid && f.password == f.confirm
    ensures s.SignUp? ==> s == SignUp(f.email, f.password, f.username)
    ensures s == Refuse(Mismatch) <==>
              f.mode == Register && f.username != [] && ValidatePassword(f.password).isValid && f.password != f.confirm
  {
    match f.mode
    case Register =>
      if f.username == [] then Refuse(UsernameRequired)
      else
        var verdict := ValidatePassword(f.password);
        if !verdict.isValid then Refuse(verdict.message.value)
        else if f.password != f.confirm then Refuse(Mismatch)
        else SignUp(f.email, f.password, f.username)
    case Login => SignIn(f.email, f.password)
    case Reset => SendReset(f.email)
  }

  /** The form's mode after the remote call: only a successful reset
      request changes it, back to login. */
  function ModeAfter(f: Form, succeeded: bool): (m: Mode)
    ensures m != f.mode <==> f.mode == Reset && succeeded
    ensures m != f.mode ==> m == Login
  {
    if Submit(f).SendReset? && succeeded then Login else f.mode
  }
}

=== FILE: chatpage.dfy ===
/** The chat page (`Chat`): what it decides when it mounts (session,
    profile, blocked accounts, the stored API key, which conversation to
    open), the creation of a conversation, and the API key dialog. */
module ChatPage {
  import opened Wrappers
  import opened Text
  import opened Schema

  const NewChatTitle := "Nueva conversación"

  /** Why `createNewChat` throws: no user id ("Usuario no autenticado"), the
      store refused the insert, or it stored nothing it could hand back
      ("No se pudo crear una nueva conversación"). */
  datatype CreateError = NotAuthenticated | StoreRefused | NotCreated

  /** The error code with which a single-row read reports that no row matched. */
  const NoRowCode := "PGRST116"

  /** The page's React state. */
  datatype Page = Page(userId: Option<string>, isAdmin: bool, selected: Option<string>, apiKey: string, keyDialog: bool, loading: bool)

  /** The state of the page's first render. */
  const Initial := Page(None, false, None, [], false, true)

  /** The session read: it fails, finds no session, or finds a signed-in user. */
  datatype SessionProbe = SessionFailed | NoSession | SignedIn(uid: string)

  /** The single-row profile read: an error code, if any, and the row, if any. */
  datatype ProfileProbe = ProfileProbe(errorCode: Option<string>, row: Option<User>)

  /** The signed-in account as the authentication service describes it. */
  datatype Account = Account(id: string, email: Option<string>, metaUsername: Option<string>)

  /** A `users` row the page inserts for an account without a profile. */
  datatype ProfileDraft = ProfileDraft(id: string, email: Option<string>, username: Option<string>, status: string, isAdmin: bool, createdAt: Timestamp)

  /** A `chats` row the page inserts. */
  datatype ChatDraft = ChatDraft(userId: string, title: string, createdAt: Timestamp, lastUpdated: Timestamp)

  /** What the page does to the outside world, in order. */
  datatype Effect = SignOut | GoToAuth | InsertProfile(profile: ProfileDraft) | InsertChat(chat: ChatDraft)

  /** The answers of every remote call and local read `checkAuth` may make.
      `chatTable` is the `chats` table, `None` when the read fails. */
  datatype Probes = Probes(
    session: SessionProbe,
    profile: ProfileProbe,
    account: Option<Account>,
    profileStored: bool,
    savedKey: Option<string>,
    chatTable: Option<seq<Chat>>,
    chatInsert: Insert<Chat>,
    now: Timestamp)

  /** The username of a new profile: the one given at registration when it
      is non-empty, otherwise the part of the email before the first `@`. */
  function DefaultUsername(a: Account): (r: Option<string>)
    ensures a.metaUsername.Some? && a.metaUsername.value != [] ==> r == a.metaUsername
    ensures (a.metaUsername.None? || a.metaUsername.value == []) ==>
              (r.Some? <==> a.email.Some?)
    ensures (a.metaUsername.None? || a.metaUsername.value == []) && a.email.Some? ==>
              && r.value <= a.email.value
              && '@' !in r.value
              && (|r.value| < |a.email.value| ==> a.email.value[|r.value|] == '@')
  {
    match a.metaUsername
    case Some(name) =>
      if name != [] then Some(name)
      else if a.email.Some? then Some(Before(a.email.value, '@')) else None
    case None =>
      if a.email.Some? then Some(Before(a.email.value, '@')) else None
  }

  /** An address of the form `name@domain` gives `name`. */
  lemma UsernameFromEmail(id: string, name: string, domain: string)
    requires '@' !in name
    ensures DefaultUsername(Account(id, Some(name + "@" + domain), None)) == Some(name)
  {
    var email := name + "@" + domain;
    var r := DefaultUsername(Account(id, Some(email), None)).value;
    assert email[|name|] == '@';
    assert r == email[..|name|] == name;
  }

  /** The profile inserted for an account with none: active, not an administrator. */
  function NewProfile(a: Account, now: Timestamp): (p: ProfileDraft)
    ensures p.id == a.id && p.email == a.email && p.username == DefaultUsername(a)
    ensures p.status == Active.Text() && !p.isAdmin
  {
    ProfileDraft(a.id, a.email, DefaultUsername(a), "active", false, now)
  }

  /** The rows the chats read returns: the user's most recently updated
      conversation, or none. */
  function LatestChat(table: seq<Chat>, uid: string): (r: seq<Chat>)
    ensures |r| <= 1
    ensures r == [] <==> forall i | 0 <= i < |table| :: table[i].userId != uid
    ensures r != [] ==> r[0] in table && r[0].userId == uid
    ensures r != [] ==> forall i | 0 <= i < |table| && table[i].userId == uid :: table[i].lastUpdated <= r[0].lastUpdated
  {
    if |table| == 0 then []
    else
      var rest := LatestChat(table[1..], uid);
      assert forall i | 1 <= i < |table| :: table[i] == table[1..][i - 1];
      if table[0].userId != uid then rest
      else if rest == [] || rest[0].lastUpdated <= table[0].lastUpdated then [table[0]]
      else rest
  }

  /** `createNewChat`: with no user id in the closure it refuses before any
      call; otherwise it inserts a conversation titled "Nueva conversación"
      and answers with the stored row's id, or an error when the store
      refuses or hands back no row. */
  function CreateChat(userId: Option<string>, now: Timestamp, insert: Insert<Chat>): (r: (seq<Effect>, Result<string, CreateError>))
    ensures (userId.None? || userId.value == []) ==> r == ([], Err(NotAuthenticated))
    ensures userId.Some? && userId.value != [] ==> r.0 == [InsertChat(ChatDraft(userId.value, NewChatTitle, now, now))]
    ensures r.1.Ok? <==> userId.Some? && userId.value != [] && insert.InsertedRow?
    ensures r.1.Ok? ==> r.1.value == insert.row.id
  {
    match userId
    case None => ([], Err(NotAuthenticated))
    case Some(uid) =>
      if uid == [] then ([], Err(NotAuthenticated))
      else
        var calls := [InsertChat(ChatDraft(uid, NewChatTitle, now, now))];
        match insert
        case InsertFailed => (calls, Err(StoreRefused))
        case InsertedNoRow => (calls, Err(NotCreated))
        case InsertedRow(row) => (calls, Ok(row.id))
  }

  /** A landing: the page's state and the effects issued. */
  datatype Landing = Landing(page: Page, effects: seq<Effect>)

  /** The `catch` of `checkAuth`: go back to the sign-in screen. */
  function Fail(page: Page, effects: seq<Effect>): Landing {
    Landing(page.(loading := false), effects + [GoToAuth])
  }

  /** The last stage of `checkAuth`: open the most recent conversation or
      create one, the creation running with `creator` as its user id. */
  function OpenConversation(page: Page, effects: seq<Effect>, p: Probes, uid: string, creator: Option<string>): (r: Landing)
    ensures r.page == page.(selected := r.page.selected, loading := false)
    ensures p.chatTable.None? ==> r == Fail(page, effects)
    ensures p.chatTable.Some? && LatestChat(p.chatTable.value, uid) != [] ==>
              r == Landing(page.(selected := Some(LatestChat(p.chatTable.value, uid)[0].id), loading := false), effects)
  {
    match p.chatTable
    case None => Fail(page, effects)
    case Some(table) =>
      var latest := LatestChat(table, uid);
      if latest != [] then Landing(page.(selected := Some(latest[0].id), loading := false), effects)
      else
        var (calls, created) := CreateChat(creator, p.now, p.chatInsert);
        match created
        case Err(_) => Fail(page, effects + calls)
        case Ok(id) => Landing(page.(selected := Some(id), loading := false), effects + calls)
  }

  /** The stored API key is loaded when it is non-empty; otherwise the key
      dialog opens. */
  function LoadKey(page: Page, savedKey: Option<string>): (r: Page)
    ensures savedKey.Some? && savedKey.value != [] ==> r == page.(apiKey := savedKey.value)
    ensures savedKey.None? || savedKey.value == [] ==> r == page.(keyDialog := true)
  {
    if savedKey.Some? && savedKey.value != [] then page.(apiKey := savedKey.value)
    else page.(keyDialog := true)
  }

  /** `checkAuth`, the creation of a first conversation running with the
      user id `creator`. */
  function Mount(p: Probes, creator: Option<string>): (r: Landing)
    ensures !r.page.loading
    ensures !p.session.SignedIn? ==> r.effects == [GoToAuth]
    ensures p.session.SignedIn? ==> r.page.userId == Some(p.session.uid)
    ensures p.session.SignedIn? && p.profile.errorCode.Some? && p.profile.errorCode.value != NoRowCode ==>
              r.effects == [GoToAuth]
    ensures ProfileRead(p) && p.profile.row.None? && p.account.Some? ==>
              |r.effects| > 0 && r.effects[0] == InsertProfile(NewProfile(p.account.value, p.now))
    ensures ProfileRead(p) && p.profile.row.None? && p.account.Some? && !p.profileStored ==>
              r.effects == [InsertProfile(NewProfile(p.account.value, p.now)), GoToAuth]
    ensures forall e | e in r.effects && e.InsertProfile? ::
              ProfileRead(p) && p.profile.row.None? && p.account.Some? && e == InsertProfile(NewProfile(p.account.value, p.now))
    ensures ProfileRead(p) && p.profile.row.Some? ==> r.page.isAdmin == p.profile.row.value.isAdmin
    ensures ReachesConversation(p) ==>
              && r.page.apiKey == LoadKey(Initial, p.savedKey).apiKey
              && r.page.keyDialog == LoadKey(Initial, p.savedKey).keyDialog
    ensures !ReachesConversation(p) ==> GoToAuth in r.effects && r.page.selected.None?
  {
    match p.session
    case SessionFailed => Fail(Initial, [])
    case NoSession => Fail(Initial, [])
    case SignedIn(uid) =>
      var page := Initial.(userId := Some(uid));
      var probe := p.profile;
      if probe.errorCode.Some? && probe.errorCode.value != NoRowCode then Fail(page, [])
      else
        match probe.row
        case None =>
          var effects := if p.account.Some? then [InsertProfile(NewProfile(p.account.value, p.now))] else [];
          if p.account.Some? && !p.profileStored then Fail(page, effects)
          else OpenConversation(LoadKey(page, p.savedKey), effects, p, uid, creator)
        case Some(row) =>
          var page := page.(isAdmin := row.isAdmin);
          if row.status == Blocked.Text() then Landing(page.(loading := false), [SignOut, GoToAuth])
          else OpenConversation(LoadKey(page, p.savedKey), [], p, uid, creator)
  }

  /** `checkAuth` as written: `createNewChat` is the function of the first
      render, whose `userId` is still the initial `null`. */
  function CheckAuthAsWritten(p: Probes): (r: Landing)
    ensures !r.page.loading
    ensures !p.session.SignedIn? ==> r.effects == [GoToAuth]
  {
    Mount(p, Initial.userId)
  }

  /** `checkAuth` with the conversation created for the session's user. */
  function CheckAuth(p: Probes): (r: Landing)
    ensures !r.page.loading
    ensures !p.session.SignedIn? ==> r.effects == [GoToAuth]
    ensures p.session.SignedIn? ==> r.page.userId == Some(p.session.uid)
  {
    Mount(p, if p.session.SignedIn? then Some(p.session.uid) else None)
  }

  /** Signed in, and the profile read either succeeded or found no row. */
  predicate ProfileRead(p: Probes) {
    p.session.SignedIn? && (p.profile.errorCode.None? || p.profile.errorCode.value == NoRowCode)
  }

  /** Everything before the conversation stage went through: signed in,
      profile read, and a profile either present and not blocked or
      inserted. */
  predicate ReachesConversation(p: Probes) {
    && ProfileRead(p)
    && (p.profile.row.None? ==> p.account.None? || p.profileStored)
    && (p.profile.row.Some? ==> p.profile.row.value.status != Blocked.Text())
  }

  /** A blocked account is signed out and sent to the sign-in screen; no
      conversation is opened or created. This holds whichever user id the
      creation would run with, so for the mount as written and for the
      corrected one alike. */
  lemma BlockedIsSignedOut(p: Probes, creator: Option<string>)
    requires p.session.SignedIn? && p.profile.errorCode.None?
    requires p.profile.row.Some? && p.profile.row.value.status == "blocked"
    ensures Mount(p, creator).effects == [SignOut, GoToAuth]
    ensures Mount(p, creator).page.selected.None?
    ensures Mount(p, creator).page.isAdmin == p.profile.row.value.isAdmin
  {
  }

  /** Whatever the probes say, the page never stays with nothing selected:
      it either opens a conversation or leaves for the sign-in screen,
      whichever user id the creation runs with. */
  lemma LandingSelectsOrLeaves(p: Probes, creator: Option<string>)
    ensures var r := Mount(p, creator);
            GoToAuth !in r.effects ==> r.page.selected.Some?
  {
  }

  /** Every sign-in that needs a first conversation ends on the sign-in
      screen when `checkAuth` runs as written: the creation refuses before
      reaching the store, whatever it would have answered. */
  lemma FirstChatNeverCreated(p: Probes)
    requires ReachesConversation(p) && p.chatTable.Some?
    requires LatestChat(p.chatTable.value, p.session.uid) == []
    ensures var r := CheckAuthAsWritten(p);
            && GoToAuth in r.effects
            && (forall e | e in r.effects :: !e.InsertChat?)
            && r.page.selected.None?
  {
  }

  /** With the session's user id, the same sign-in opens the conversation
      the store creates for that user. */
  lemma FirstChatCreated(p: Probes)
    requires ReachesConversation(p) && p.chatTable.Some?
    requires LatestChat(p.chatTable.value, p.session.uid) == []
    requires p.session.uid != [] && p.chatInsert.InsertedRow?
    ensures var r := CheckAuth(p);
            && GoToAuth !in r.effects
            && InsertChat(ChatDraft(p.session.uid, NewChatTitle, p.now, p.now)) in r.effects
            && r.page.selected == Some(p.chatInsert.row.id)
  {
  }

  /** A first sign-in that shows the discrepancy: a new account, no
      profile, no conversation, every call succeeding. */
  function NewAccountScenario(): (p: Probes)
    ensures ReachesConversation(p) && p.chatTable == Some([])
  {
    var row := Chat("c1", "u1", NewChatTitle, 5, 5);
    Probes(SignedIn("u1"), ProfileProbe(Some(NoRowCode), None),
           Some(Account("u1", Some("ana@example.com"), None)), true,
           None, Some([]), InsertedRow(row), 5)
  }

  /** As written, the new account is sent back to the sign-in screen (which
      sends a signed-in user straight back to the chat page); with the fix
      it lands on its first conversation. */
  lemma NewAccountBounced()
    ensures GoToAuth in CheckAuthAsWritten(NewAccountScenario()).effects
    ensures CheckAuth(NewAccountScenario()).page.selected == Some("c1")
  {
  }

  /** The API key dialog's state: the text typed, the stored key, whether
      the dialog is open. */
  datatype KeyForm = KeyForm(apiKey: string, stored: Option<string>, dialog: bool)

  /** `handleSaveApiKey`: a key that is not blank is stored trimmed and the
      dialog closes; a blank one changes nothing. The text in the session
      is left as typed. */
  function SaveApiKey(k: KeyForm): (r: KeyForm)
    ensures r.apiKey == k.apiKey
    ensures !Blank(k.apiKey) ==> r.stored == Some(Trim(k.apiKey)) && !r.dialog
    ensures Blank(k.apiKey) ==> r == k
  {
    var key := Trim(k.apiKey);
    if key != [] then k.(stored := Some(key), dialog := false) else k
  }

  /** A key saved in the dialog is what the next mount loads, without
      surrounding whitespace, and the dialog does not reopen. */
  lemma SavedKeyReloads(k: KeyForm, page: Page)
    requires !Blank(k.apiKey)
    ensures var stored := SaveApiKey(k).stored;
            && LoadKey(page, stored).apiKey == Trim(k.apiKey)
            && LoadKey(page, stored).keyDialog == page.keyDialog
            && LoadKey(page, stored).apiKey == Trim(LoadKey(page, stored).apiKey)
  {
    var t := Trim(k.apiKey);
    assert t != [];
    assert SaveApiKey(k).stored == Some(t);
    assert LoadKey(page, Some(t)) == page.(apiKey := t);
    TrimIdempotent(k.apiKey);
  }
}

=== FILE: conversation.dfy ===
/** The message list of the open chat (`ChatInterface`): one send turn as a
    fixed chain of list transformations driven by the outcomes of the three
    remote calls it makes, plus delete and load. */
module Conversation {
  import opened Wrappers
  import opened Text
  import opened Lists
  import opened Schema

  /** Prefix of the id given to the waiting assistant entry. */
  const TempPrefix := "temp-"

  /** Content of the waiting assistant entry. */
  const Thinking := "Pensando..."

  predicate IsTemp(id: string) {
    StartsWith(id, TempPrefix)
  }

  /** No entry of `ms` carries `id`. */
  predicate Absent(ms: seq<Message>, id: string) {
    forall i | 0 <= i < |ms| :: ms[i].id != id
  }

  predicate NoTemp(ms: seq<Message>) {
    forall i | 0 <= i < |ms| :: !IsTemp(ms[i].id)
  }

  /** The optimistic user entry's id, `Date.now().toString()`: digits only,
      so it can never be taken for a waiting entry. */
  function ProvisionalId(now: nat): (id: string)
    ensures |id| > 0 && IsDigit(id[0])
    ensures !IsTemp(id)
  {
    DecimalString(now)
  }

  /** The waiting entry's id, `'temp-' + Date.now().toString()`. */
  function PlaceholderId(now: nat): (id: string)
    ensures IsTemp(id)
    ensures forall m: nat :: id != ProvisionalId(m)
  {
    TempPrefix + DecimalString(now)
  }

  /** Placeholder ids minted at different instants differ. */
  lemma PlaceholderIdInjective(m: nat, n: nat)
    requires m != n
    ensures PlaceholderId(m) != PlaceholderId(n)
  {
    DecimalInjective(m, n);
    assert PlaceholderId(m)[5..] == DecimalString(m);
    assert PlaceholderId(n)[5..] == DecimalString(n);
  }

  /** State the send handler reads and writes. */
  datatype Composer = Composer(messages: seq<Message>, input: string, loading: bool)

  /** One `{role, content}` entry of the completion request. */
  datatype Turn = Turn(role: Role, content: string)

  /** What the completion service answered. */
  datatype Completion = CompletionFailed | Completed(reply: string)

  /** A write the turn issues to the store. */
  datatype Write =
    | StoreMessage(chatId: string, role: Role, content: string, userId: string)
    | TouchChat(chatId: string)

  /** The two `Date.now()` readings of a turn: when it is sent, and when the
      waiting entry is minted. */
  datatype Clock = Clock(sentAt: nat, waitingAt: nat)

  /** The outcomes of the turn's remote calls, in the order they are made. */
  datatype Outcomes = Outcomes(userInsert: Insert<Message>, completion: Completion, replyInsert: Insert<Message>)

  /** A finished turn: the state left behind, the completion request (if the
      service was called) and the writes issued to the store, in order. */
  datatype TurnResult = TurnResult(after: Composer, request: Option<seq<Turn>>, writes: seq<Write>)

  /** The guard of the send handler: something besides whitespace typed
      (the trimmed input is not empty), no send running, and a chat open. */
  predicate CanSend(c: Composer, chatId: string) {
    !Blank(c.input) && !c.loading && chatId != []
  }

  function Optimistic(chatId: string, text: string, now: nat): Message {
    Message(ProvisionalId(now), chatId, UserRole, text, now)
  }

  function Waiting(chatId: string, now: nat): Message {
    Message(PlaceholderId(now), chatId, AssistantRole, Thinking, now)
  }

  /** Swap the entry (or entries) carrying `id` for the stored `row`. */
  function Reconcile(ms: seq<Message>, id: string, row: Message): (r: seq<Message>)
    ensures |r| == |ms|
    ensures forall i | 0 <= i < |ms| && ms[i].id != id :: r[i] == ms[i]
    ensures forall i | 0 <= i < |ms| && ms[i].id == id :: r[i] == row
    ensures Absent(ms, id) ==> r == ms
  {
    var r := UpdateWhere(ms, (m: Message) => m.id == id, (m: Message) => row);
    assert Absent(ms, id) ==> r == ms by {
      if Absent(ms, id) {
        UpdateWhereMiss(ms, (m: Message) => m.id == id, (m: Message) => row);
      }
    }
    r
  }

  /** Reconciling twice with the same row is reconciling once. */
  lemma ReconcileIdempotent(ms: seq<Message>, id: string, row: Message)
    ensures Reconcile(Reconcile(ms, id, row), id, row) == Reconcile(ms, id, row)
  {
  }

  /** Give the entry (or entries) carrying `id` the completion text and keep
      everything else of them. */
  function PatchContent(ms: seq<Message>, id: string, text: string): (r: seq<Message>)
    ensures |r| == |ms|
    ensures forall i | 0 <= i < |ms| :: r[i].id == ms[i].id && r[i].chatId == ms[i].chatId
    ensures forall i | 0 <= i < |ms| :: r[i].role == ms[i].role && r[i].createdAt == ms[i].createdAt
    ensures forall i | 0 <= i < |ms| :: r[i].content == if ms[i].id == id then text else ms[i].content
  {
    UpdateWhere(ms, (m: Message) => m.id == id, (m: Message) => m.(content := text))
  }

  /** The rollback of the send handler: every entry whose id starts with
      `temp-` goes, the others stay in order. */
  function DropTemp(ms: seq<Message>): (r: seq<Message>)
    ensures NoTemp(r)
    ensures forall m: Message {:trigger multiset(r)[m]} | !IsTemp(m.id) :: multiset(r)[m] == multiset(ms)[m]
    ensures Subseq(r, ms)
    ensures NoTemp(ms) ==> r == ms
  {
    Filter(ms, (m: Message) => !IsTemp(m.id))
  }

  lemma DropTempAppend(a: seq<Message>, b: seq<Message>)
    ensures DropTemp(a + b) == DropTemp(a) + DropTemp(b)
  {
    FilterAppend(a, b, (m: Message) => !IsTemp(m.id));
  }

  /** The completion request: the list as it was before the send, reduced
      to role and content, then the new text as a user turn. */
  function History(before: seq<Message>, text: string): (h: seq<Turn>)
    ensures |h| == |before| + 1
    ensures forall i | 0 <= i < |before| :: h[i] == Turn(before[i].role, before[i].content)
    ensures h[|before|] == Turn(UserRole, text)
  {
    if |before| == 0 then [Turn(UserRole, text)]
    else [Turn(before[0].role, before[0].content)] + History(before[1..], text)
  }

  /** The writes a turn issues, in order: the user message; the reply once
      the completion arrived; the chat's `last_updated` once the reply is
      stored. A failure stops the chain. */
  function TurnWrites(chatId: string, userId: string, text: string, out: Outcomes): (w: seq<Write>)
    ensures 1 <= |w| <= 3
    ensures w[0] == StoreMessage(chatId, UserRole, text, userId)
    ensures |w| >= 2 <==> !out.userInsert.InsertFailed? && out.completion.Completed?
    ensures |w| >= 2 ==> w[1] == StoreMessage(chatId, AssistantRole, out.completion.reply, userId)
    ensures |w| == 3 ==> w[2] == TouchChat(chatId)
    ensures TouchChat(chatId) in w <==>
              !out.userInsert.InsertFailed? && out.completion.Completed? && !out.replyInsert.InsertFailed?
  {
    var storeUser := StoreMessage(chatId, UserRole, text, userId);
    if out.userInsert.InsertFailed? || out.completion.CompletionFailed? then [storeUser]
    else
      var storeReply := StoreMessage(chatId, AssistantRole, out.completion.reply, userId);
      if out.replyInsert.InsertFailed? then [storeUser, storeReply]
      else [storeUser, storeReply, TouchChat(chatId)]
  }

  /** The ids a turn mints are new to the list, and the stored user row
      does not reuse the waiting entry's id. */
  predicate FreshIds(before: seq<Message>, clock: Clock, userInsert: Insert<Message>) {
    && Absent(before, ProvisionalId(clock.sentAt))
    && Absent(before, PlaceholderId(clock.waitingAt))
    && (userInsert.InsertedRow? ==> userInsert.row.id != PlaceholderId(clock.waitingAt))
  }

  /** The user entry the list holds once the user row was stored: the row
      the store returned, or the optimistic entry when it returned none. */
  function UserEntry(chatId: string, text: string, clock: Clock, userInsert: Insert<Message>): Message {
    if userInsert.InsertedRow? then userInsert.row else Optimistic(chatId, text, clock.sentAt)
  }

  /** Swapping the row in for the last entry, when its id nothing else carries. */
  lemma ReconcileLast(xs: seq<Message>, x: Message, row: Message)
    ensures Absent(xs, x.id) ==> Reconcile(xs + [x], x.id, row) == xs + [row]
  {
  }

  /** Patching the text of the last entry, whose id nothing else carries. */
  lemma PatchLast(xs: seq<Message>, x: Message, text: string)
    requires Absent(xs, x.id)
    ensures PatchContent(xs + [x], x.id, text) == xs + [x.(content := text)]
  {
  }

  /** The list while the completion is awaited: the optimistic user entry
      appended, swapped by id for the stored row when one came back, and
      the waiting entry appended after it. When the minted ids are fresh,
      that is the old list plus exactly those two entries. */
  function AwaitingReply(before: seq<Message>, chatId: string, text: string, clock: Clock, userInsert: Insert<Message>): (r: seq<Message>)
    ensures FreshIds(before, clock, userInsert) ==>
              r == before + [UserEntry(chatId, text, clock, userInsert), Waiting(chatId, clock.waitingAt)]
  {
    var optimistic := Optimistic(chatId, text, clock.sentAt);
    var shown := before + [optimistic];
    var confirmed :=
      (match userInsert
       case InsertedRow(row) =>
         ReconcileLast(before, optimistic, row);
         Reconcile(shown, optimistic.id, row)
       case _ => shown);
    confirmed + [Waiting(chatId, clock.waitingAt)]
  }

  /** The last stage: the reply row swapped in for the waiting entry by id,
      or only the reply text patched in when no row came back; a failed
      completion or reply insert drops every `temp-` entry and keeps every
      other one, in order. */
  function Settle(waiting: seq<Message>, waitingId: string, completion: Completion, replyInsert: Insert<Message>): (r: seq<Message>)
    ensures completion.CompletionFailed? || replyInsert.InsertFailed? ==>
              && NoTemp(r)
              && (forall m: Message {:trigger multiset(r)[m]} | !IsTemp(m.id) :: multiset(r)[m] == multiset(waiting)[m])
              && Subseq(r, waiting)
    ensures completion.Completed? && !replyInsert.InsertFailed? ==>
              && |r| == |waiting|
              && (forall i | 0 <= i < |waiting| && waiting[i].id != waitingId :: r[i] == waiting[i])
    ensures completion.Completed? && replyInsert.InsertedRow? ==>
              forall i | 0 <= i < |waiting| && waiting[i].id == waitingId :: r[i] == replyInsert.row
    ensures completion.Completed? && replyInsert.InsertedNoRow? ==>
              forall i | 0 <= i < |waiting| && waiting[i].id == waitingId :: r[i] == waiting[i].(content := completion.reply)
  {
    match (completion, replyInsert)
    case (Completed(reply), InsertedRow(row)) => Reconcile(waiting, waitingId, row)
    case (Completed(reply), InsertedNoRow) => PatchContent(waiting, waitingId, reply)
    case _ => DropTemp(waiting)
  }

  /** The list a turn leaves behind, as the handler is written: any failure
      drops every `temp-` entry of the list as it stands, not only the
      turn's own waiting entry. The optimistic user entry has a digits-only
      id, so it stays even when its insert failed. */
  function TurnMessages(before: seq<Message>, chatId: string, text: string, clock: Clock, out: Outcomes): (r: seq<Message>)
    ensures out.userInsert.InsertFailed? ==> r == DropTemp(before) + [Optimistic(chatId, text, clock.sentAt)]
  {
    if out.userInsert.InsertFailed? then
      DropTempAppend(before, [Optimistic(chatId, text, clock.sentAt)]);
      DropTemp(before + [Optimistic(chatId, text, clock.sentAt)])
    else
      Settle(AwaitingReply(before, chatId, text, clock, out.userInsert), PlaceholderId(clock.waitingAt), out.completion, out.replyInsert)
  }

  /** One press of send (`handleSendMessage`): the guard, then the turn.
      The request sent to the completion service is built from the list as
      it was before the send; the loading flag ends cleared on every path
      past the guard. A failed user insert drops every `temp-` entry the
      list held, then keeps the optimistic entry. */
  function SendTurn(c: Composer, chatId: string, userId: string, clock: Clock, out: Outcomes): (r: TurnResult)
    ensures !CanSend(c, chatId) ==> r == TurnResult(c, None, [])
    ensures CanSend(c, chatId) ==> r.after.input == [] && !r.after.loading
    ensures CanSend(c, chatId) ==> r.writes == TurnWrites(chatId, userId, Trim(c.input), out)
    ensures r.request.Some? <==> CanSend(c, chatId) && !out.userInsert.InsertFailed?
    ensures r.request.Some? ==> r.request.value == History(c.messages, Trim(c.input))
    ensures CanSend(c, chatId) ==> r.after.messages == TurnMessages(c.messages, chatId, Trim(c.input), clock, out)
  {
    if !CanSend(c, chatId) then TurnResult(c, None, [])
    else
      var text := Trim(c.input);
      var request := if out.userInsert.InsertFailed? then None else Some(History(c.messages, text));
      TurnResult(Composer(TurnMessages(c.messages, chatId, text, clock, out), [], false), request, TurnWrites(chatId, userId, text, out))
  }

  /** The send handler with the intended rollback: the same guard, request
      and writes, but a failure removes only the turn's own waiting entry,
      so a failed user insert leaves the old list followed by the
      optimistic entry. */
  function SendTurnFixed(c: Composer, chatId: string, userId: string, clock: Clock, out: Outcomes): (r: TurnResult)
    ensures r.request == SendTurn(c, chatId, userId, clock, out).request
    ensures r.writes == SendTurn(c, chatId, userId, clock, out).writes
    ensures !CanSend(c, chatId) ==> r == TurnResult(c, None, [])
    ensures CanSend(c, chatId) ==> r.after.input == [] && !r.after.loading
    ensures CanSend(c, chatId) ==> r.after.messages == TurnMessagesFixed(c.messages, chatId, Trim(c.input), clock, out)
    ensures CanSend(c, chatId) && out.userInsert.InsertFailed? ==>
              r.after.messages == c.messages + [Optimistic(chatId, Trim(c.input), clock.sentAt)]
  {
    var written := SendTurn(c, chatId, userId, clock, out);
    if !CanSend(c, chatId) then written
    else written.(after := written.after.(messages := TurnMessagesFixed(c.messages, chatId, Trim(c.input), clock, out)))
  }

  /** A fully successful turn whose rows came back leaves the old list
      followed by the stored user row and the stored reply row: nothing
      before them moved, nothing else was added. */
  lemma TurnStoresBothRows(before: seq<Message>, chatId: string, text: string, clock: Clock, out: Outcomes)
    requires FreshIds(before, clock, out.userInsert)
    requires !out.userInsert.InsertFailed? && out.completion.Completed? && out.replyInsert.InsertedRow?
    ensures TurnMessages(before, chatId, text, clock, out) == before + [UserEntry(chatId, text, clock, out.userInsert), out.replyInsert.row]
  {
  }

  /** When the store returns no reply row, the waiting entry stays where it
      is, keeps its `temp-` id and only its text becomes the reply. */
  lemma TurnKeepsWaitingEntry(before: seq<Message>, chatId: string, text: string, clock: Clock, out: Outcomes)
    requires FreshIds(before, clock, out.userInsert)
    requires !out.userInsert.InsertFailed? && out.completion.Completed? && out.replyInsert.InsertedNoRow?
    ensures TurnMessages(before, chatId, text, clock, out)
              == before + [UserEntry(chatId, text, clock, out.userInsert), Waiting(chatId, clock.waitingAt).(content := out.completion.reply)]
  {
  }

  /** A failure after the user row was stored (the completion or the reply
      insert) leaves the old list, minus its `temp-` entries, followed by
      the user entry: the user's message survives and the turn leaves no
      assistant entry behind. */
  lemma TurnRollsBackReply(before: seq<Message>, chatId: string, text: string, clock: Clock, out: Outcomes)
    requires FreshIds(before, clock, out.userInsert)
    requires !out.userInsert.InsertFailed? && (out.userInsert.InsertedRow? ==> !IsTemp(out.userInsert.row.id))
    requires out.completion.CompletionFailed? || out.replyInsert.InsertFailed?
    ensures TurnMessages(before, chatId, text, clock, out) == DropTemp(before) + [UserEntry(chatId, text, clock, out.userInsert)]
  {
    var u := UserEntry(chatId, text, clock, out.userInsert);
    var w := Waiting(chatId, clock.waitingAt);
    var waiting := AwaitingReply(before, chatId, text, clock, out.userInsert);
    assert waiting == (before + [u]) + [w];
    assert TurnMessages(before, chatId, text, clock, out) == DropTemp(waiting);
    DropTempAppend(before + [u], [w]);
    DropTempAppend(before, [u]);
    DropTempSingle(w);
    DropTempSingle(u);
  }

  /** Dropping `temp-` entries from a one-entry list. */
  lemma DropTempSingle(m: Message)
    ensures DropTemp([m]) == if IsTemp(m.id) then [] else [m]
  {
  }

  /** The rollback as intended: only this turn's waiting entry goes. A
      failure at any stage leaves the old list, untouched, followed by the
      user entry. */
  function TurnMessagesFixed(before: seq<Message>, chatId: string, text: string, clock: Clock, out: Outcomes): (r: seq<Message>)
    ensures (&& FreshIds(before, clock, out.userInsert)
             && (out.userInsert.InsertFailed? || out.completion.CompletionFailed? || out.replyInsert.InsertFailed?))
              ==> r == before + [UserEntry(chatId, text, clock, out.userInsert)]
  {
    if out.userInsert.InsertFailed? then
      before + [Optimistic(chatId, text, clock.sentAt)]
    else
      var waitingId := PlaceholderId(clock.waitingAt);
      var waiting := AwaitingReply(before, chatId, text, clock, out.userInsert);
      match (out.completion, out.replyInsert)
      case (Completed(reply), InsertedRow(row)) => Reconcile(waiting, waitingId, row)
      case (Completed(reply), InsertedNoRow) => PatchContent(waiting, waitingId, reply)
      case _ =>
        var u := UserEntry(chatId, text, clock, out.userInsert);
        assert ProvisionalId(clock.sentAt) != waitingId;
        assert FreshIds(before, clock, out.userInsert) ==> waiting == (before + [u]) + [Waiting(chatId, clock.waitingAt)];
        RemoveLast(before + [u], Waiting(chatId, clock.waitingAt));
        DeleteMessage(waiting, waitingId, true)
  }

  /** Deleting the id of the last entry, when nothing else carries it. */
  lemma RemoveLast(xs: seq<Message>, x: Message)
    ensures Absent(xs, x.id) ==> DeleteMessage(xs + [x], x.id, true) == xs
  {
    var keep := (m: Message) => m.id != x.id;
    FilterAppend(xs, [x], keep);
    assert [x][1..] == [];
    assert Filter([x], keep) == [];
  }

  /** A failure after the user row was stored: on a list with no `temp-`
      entry, dropping every `temp-` entry removes just the turn's waiting
      entry, as the intended rollback does. */
  lemma RollbackAgreesWithoutTempEntries(before: seq<Message>, chatId: string, text: string, clock: Clock, out: Outcomes)
    requires FreshIds(before, clock, out.userInsert) && NoTemp(before)
    requires out.userInsert.InsertedRow? ==> !IsTemp(out.userInsert.row.id)
    requires !out.userInsert.InsertFailed? && (out.completion.CompletionFailed? || out.replyInsert.InsertFailed?)
    ensures TurnMessagesFixed(before, chatId, text, clock, out) == TurnMessages(before, chatId, text, clock, out)
  {
    TurnRollsBackReply(before, chatId, text, clock, out);
  }

  /** The two rollbacks differ only on lists that already hold a `temp-`
      entry: without one, the turn as written and the intended turn leave
      the same list, on every path. */
  lemma FixedAgreesWithoutTempEntries(before: seq<Message>, chatId: string, text: string, clock: Clock, out: Outcomes)
    requires FreshIds(before, clock, out.userInsert) && NoTemp(before)
    requires out.userInsert.InsertedRow? ==> !IsTemp(out.userInsert.row.id)
    ensures TurnMessagesFixed(before, chatId, text, clock, out) == TurnMessages(before, chatId, text, clock, out)
  {
    if !out.userInsert.InsertFailed? && (out.completion.CompletionFailed? || out.replyInsert.InsertFailed?) {
      RollbackAgreesWithoutTempEntries(before, chatId, text, clock, out);
    }
  }

  /** A list holding an earlier reply that kept its `temp-` id, and a turn
      whose user row is stored but whose completion fails. */
  function LostReplyScenario(): (Message, Message, Message, Outcomes, Clock) {
    var asked := Message("41", "c", UserRole, "Hola", 1);
    var answered := Message("temp-2", "c", AssistantRole, "Buenas", 2);
    var stored := Message("43", "c", UserRole, "Otra", 3);
    (asked, answered, stored, Outcomes(InsertedRow(stored), CompletionFailed, InsertFailed), Clock(3, 4))
  }

  lemma LostReplyScenarioFresh()
    ensures var (asked, answered, stored, out, clock) := LostReplyScenario();
            && FreshIds([asked, answered], clock, out.userInsert)
            && IsTemp(answered.id) && !IsTemp(asked.id) && !IsTemp(stored.id)
  {
  }

  /** The rollback as written loses an earlier reply: a turn whose reply
      row did not come back keeps it under its `temp-` id, and the next
      failed turn drops it together with its own waiting entry. */
  lemma EarlierReplyLost()
    ensures var (asked, answered, stored, out, clock) := LostReplyScenario();
            TurnMessages([asked, answered], "c", "Otra", clock, out) == [asked, stored]
  {
    var (asked, answered, stored, out, clock) := LostReplyScenario();
    LostReplyScenarioFresh();
    TurnRollsBackReply([asked, answered], "c", "Otra", clock, out);
    assert [asked, answered] == [asked] + [answered];
    DropTempAppend([asked], [answered]);
    DropTempSingle(asked);
    DropTempSingle(answered);
  }

  /** The intended rollback keeps that earlier reply. */
  lemma EarlierReplyKept()
    ensures var (asked, answered, stored, out, clock) := LostReplyScenario();
            TurnMessagesFixed([asked, answered], "c", "Otra", clock, out) == [asked, answered, stored]
  {
  }

  /** The same loss when the user insert itself fails: the earlier reply
      goes with the rollback, while the intended one keeps it. */
  lemma EarlierReplyLostOnFailedInsert()
    ensures var (asked, answered, _, _, clock) := LostReplyScenario();
            var out := Outcomes(InsertFailed, CompletionFailed, InsertFailed);
            var optimistic := Optimistic("c", "Otra", clock.sentAt);
            && TurnMessages([asked, answered], "c", "Otra", clock, out) == [asked, optimistic]
            && TurnMessagesFixed([asked, answered], "c", "Otra", clock, out) == [asked, answered, optimistic]
  {
    var (asked, answered, _, _, clock) := LostReplyScenario();
    LostReplyScenarioFresh();
    assert [asked, answered] == [asked] + [answered];
    DropTempAppend([asked], [answered]);
    DropTempSingle(asked);
    DropTempSingle(answered);
  }

  /** `handleDeleteMessage`: once the store confirms, every entry with the
      id goes and the rest stay in order; on a failed delete nothing changes. */
  function DeleteMessage(ms: seq<Message>, id: string, deleted: bool): (r: seq<Message>)
    ensures !deleted ==> r == ms
    ensures Absent(r, id) || !deleted
    ensures forall m: Message {:trigger multiset(r)[m]} | m.id != id :: multiset(r)[m] == multiset(ms)[m]
    ensures Subseq(r, ms)
    ensures Absent(ms, id) ==> r == ms
  {
    if deleted then Filter(ms, (m: Message) => m.id != id) else (SubseqRefl(ms); ms)
  }

  /** Loading a chat's messages: nothing happens without a chat; otherwise
      a successful read replaces the list and a failed one keeps it. */
  function LoadMessages(ms: seq<Message>, chatId: string, fetch: Fetch<Message>): (r: seq<Message>)
    ensures chatId == [] || fetch.FetchFailed? ==> r == ms
    ensures chatId != [] && fetch.Fetched? ==> r == fetch.data.GetOr([])
  {
    if chatId == [] then ms else Refresh(ms, fetch)
  }
}

=== FILE: lists.dfy ===
/** The two list updates every screen performs on its React state:
    `Array.prototype.filter` (deletes, rollbacks, searches) and an
    `Array.prototype.map` that rewrites only the matching entries
    (reconciliation, per-user field updates). */
module Lists {

  /** `a` can be obtained from `b` by deleting entries: same relative order. */
  ghost predicate Subseq<T>(a: seq<T>, b: seq<T>)
    decreases |b|
  {
    if |b| == 0 then |a| == 0
    else (|a| > 0 && a[0] == b[0] && Subseq(a[1..], b[1..])) || Subseq(a, b[1..])
  }

  /** Every list is a subsequence of itself. */
  lemma {:induction false} SubseqRefl<T>(s: seq<T>)
    ensures Subseq(s, s)
  {
    if |s| > 0 {
      SubseqRefl(s[1..]);
    }
  }

  /** `s.filter(keep)`: the entries satisfying `keep`, every one of them,
      nothing else, in their original order. */
  function Filter<T(==,!new)>(s: seq<T>, keep: T -> bool): (r: seq<T>)
    ensures |r| <= |s|
    ensures forall i | 0 <= i < |r| :: keep(r[i])
    ensures forall x {:trigger multiset(r)[x]} | keep(x) :: multiset(r)[x] == multiset(s)[x]
    ensures Subseq(r, s)
    ensures (forall i | 0 <= i < |s| :: keep(s[i])) ==> r == s
  {
    if |s| == 0 then []
    else
      var rest := Filter(s[1..], keep);
      assert s == [s[0]] + s[1..];
      if keep(s[0]) then
        assert ([s[0]] + rest)[1..] == rest;
        [s[0]] + rest
      else
        rest
  }

  /** Filtering distributes over concatenation. */
  lemma {:induction false} FilterAppend<T(!new)>(a: seq<T>, b: seq<T>, keep: T -> bool)
    ensures Filter(a + b, keep) == Filter(a, keep) + Filter(b, keep)
    decreases |a|
  {
    if |a| == 0 {
      assert a + b == b;
    } else {
      var t := a[1..];
      assert (a + b)[1..] == t + b;
      FilterAppend(t, b, keep);
      if keep(a[0]) {
        calc {
          Filter(a + b, keep);
          [a[0]] + Filter(t + b, keep);
          [a[0]] + (Filter(t, keep) + Filter(b, keep));
          ([a[0]] + Filter(t, keep)) + Filter(b, keep);
        }
      } else {
        assert Filter(a + b, keep) == Filter(t + b, keep);
      }
    }
  }

  /** `s.map(x => hit(x) ? f(x) : x)`: every entry keeps its position; the
      matching ones are rewritten by `f`, the others are untouched. */
  function UpdateWhere<T>(s: seq<T>, hit: T -> bool, f: T -> T): (r: seq<T>)
    ensures |r| == |s|
    ensures forall i | 0 <= i < |s| && !hit(s[i]) :: r[i] == s[i]
    ensures forall i | 0 <= i < |s| && hit(s[i]) :: r[i] == f(s[i])
  {
    if |s| == 0 then []
    else [if hit(s[0]) then f(s[0]) else s[0]] + UpdateWhere(s[1..], hit, f)
  }

  /** When nothing matches, the map returns the list it was given. */
  lemma UpdateWhereMiss<T>(s: seq<T>, hit: T -> bool, f: T -> T)
    requires forall i | 0 <= i < |s| :: !hit(s[i])
    ensures UpdateWhere(s, hit, f) == s
  {
  }
}

=== FILE: schema.dfy ===
/** The rows of the three store tables the front-end reads and writes
    (`users`, `chats`, `messages`), and the remote outcomes its calls can
    have. Timestamps are opaque ordered instants. */
module Schema {
  import opened Wrappers

  /** An instant (`created_at`, `last_updated`, `Date.now()`): only its order matters. */
  type Timestamp = nat

  datatype Role = UserRole | AssistantRole

  datatype Message = Message(id: string, chatId: string, role: Role, content: string, createdAt: Timestamp)

  datatype Chat = Chat(id: string, userId: string, title: string, createdAt: Timestamp, lastUpdated: Timestamp)

  /** A `users` row. `status` is kept as the text the store returned: the
      client's type admits only active, pending and blocked, but nothing
      checks a row on its way in. */
  datatype User = User(id: string, username: string, email: string, createdAt: Timestamp, status: string, isAdmin: bool)

  /** The three account states the client knows. */
  datatype Status = Active | Pending | Blocked {
    function Text(): string {
      match this
      case Active => "active"
      case Pending => "pending"
      case Blocked => "blocked"
    }
  }

  /** A bulk read: the call fails, or it answers with rows or with `null`. */
  datatype Fetch<T> = FetchFailed | Fetched(data: Option<seq<T>>)

  /** An `insert(...).select()`: the call fails, or it succeeds and the
      store hands back the stored row, or it succeeds with no row. */
  datatype Insert<T> = InsertFailed | InsertedRow(row: T) | InsertedNoRow

  /** `setList(data || [])` inside a `try` whose `catch` only reports: the
      whole list is replaced by a successful read and kept on a failed one. */
  function Refresh<T>(current: seq<T>, fetch: Fetch<T>): (r: seq<T>)
    ensures fetch.FetchFailed? ==> r == current
    ensures fetch.Fetched? && fetch.data.Some? ==> r == fetch.data.value
    ensures fetch.Fetched? && fetch.data.None? ==> r == []
  {
    match fetch
    case FetchFailed => current
    case Fetched(data) => data.GetOr([])
  }
}

=== FILE: sidebar.dfy ===
/** The conversation list (`ChatSidebar`): its search, its reload on every
    change notification, and the deletion of a conversation together with
    the choice of what to show next. */
module Sidebar {
  import opened Wrappers
  import opened Text
  import opened Lists
  import opened Schema

  /** The search box: a conversation is listed when its title contains the
      query, ignoring case. */
  predicate TitleMatches(c: Chat, query: string) {
    ContainsIgnoringCase(c.title, query)
  }

  /** `filteredChats`: an empty query lists every conversation; otherwise
      exactly the matching ones, in list order. */
  function FilteredChats(chats: seq<Chat>, query: string): (r: seq<Chat>)
    ensures query == [] ==> r == chats
    ensures forall i | 0 <= i < |r| :: TitleMatches(r[i], query)
    ensures forall c {:trigger multiset(r)[c]} | TitleMatches(c, query) :: multiset(r)[c] == multiset(chats)[c]
    ensures Subseq(r, chats)
  {
    if query == [] then
      assert forall i | 0 <= i < |chats| :: TitleMatches(chats[i], query) by {
        forall i | 0 <= i < |chats|
          ensures TitleMatches(chats[i], query)
        {
          ContainsEmpty(Lower(chats[i].title));
        }
      }
      SubseqRefl(chats);
      chats
    else
      Filter(chats, (c: Chat) => TitleMatches(c, query))
  }

  /** `loadChats` run at mount and once per change notification, the reads
      answering in `fetches`, in order: each successful read replaces the
      list, each failed one keeps it. The content of a notification is never
      looked at. */
  function Replay(chats: seq<Chat>, fetches: seq<Fetch<Chat>>): (r: seq<Chat>)
    ensures (forall i | 0 <= i < |fetches| :: fetches[i].FetchFailed?) ==> r == chats
    decreases |fetches|
  {
    if |fetches| == 0 then chats
    else Replay(Refresh(chats, fetches[0]), fetches[1..])
  }

  /** The answer of the last read that succeeded, or `initial` when none did. */
  function LastSuccess(initial: seq<Chat>, fetches: seq<Fetch<Chat>>): seq<Chat>
    decreases |fetches|
  {
    if |fetches| == 0 then initial
    else
      var last := fetches[|fetches| - 1];
      if last.FetchFailed? then LastSuccess(initial, fetches[..|fetches| - 1])
      else last.data.GetOr([])
  }

  /** Whatever the notifications said, the list ends up equal to the last
      successful read: the sidebar never merges a change into its list, it
      replaces the list. */
  lemma {:induction false} ReplayKeepsLastSuccess(chats: seq<Chat>, fetches: seq<Fetch<Chat>>)
    ensures Replay(chats, fetches) == LastSuccess(chats, fetches)
    decreases |fetches|
  {
    if |fetches| > 0 {
      var first := fetches[0];
      var rest := fetches[1..];
      ReplayKeepsLastSuccess(Refresh(chats, first), rest);
      LastSuccessShift(chats, first, rest);
      assert fetches == [first] + rest;
    }
  }

  /** Peeling the first read off the front of `LastSuccess`. */
  lemma {:induction false} LastSuccessShift(chats: seq<Chat>, first: Fetch<Chat>, rest: seq<Fetch<Chat>>)
    ensures LastSuccess(Refresh(chats, first), rest) == LastSuccess(chats, [first] + rest)
    decreases |rest|
  {
    var all := [first] + rest;
    if |rest| == 0 {
      assert all[..0] == [];
    } else {
      var front := rest[..|rest| - 1];
      assert all[..|all| - 1] == [first] + front;
      assert all[|all| - 1] == rest[|rest| - 1];
      LastSuccessShift(chats, first, front);
    }
  }

  /** The store deletions removing a conversation issues, in order. */
  datatype Removal = RemoveMessages(chatId: string) | RemoveChat(chatId: string)

  /** What the page shows after a deletion. */
  datatype Next = KeepSelection | SelectChat(chatId: string) | CreateChat

  datatype ChatDeletion = ChatDeletion(calls: seq<Removal>, chats: seq<Chat>, next: Next)

  /** `handleDeleteChat`: the conversation's messages are deleted, then the
      conversation; a refusal stops the chain and changes nothing. On
      success the conversation leaves the list and, if it was the one on
      screen, the first remaining one is shown, or a new one is created
      when none remains. */
  function DeleteChat(chats: seq<Chat>, selected: Option<string>, id: string, messagesOk: bool, chatOk: bool): (r: ChatDeletion)
    ensures r.calls == (if messagesOk then [RemoveMessages(id), RemoveChat(id)] else [RemoveMessages(id)])
    ensures !(messagesOk && chatOk) ==> r.chats == chats && r.next == KeepSelection
    ensures messagesOk && chatOk ==>
              && (forall i | 0 <= i < |r.chats| :: r.chats[i].id != id)
              && (forall c: Chat {:trigger multiset(r.chats)[c]} | c.id != id :: multiset(r.chats)[c] == multiset(chats)[c])
              && Subseq(r.chats, chats)
    ensures r.next != KeepSelection <==> messagesOk && chatOk && selected == Some(id)
    ensures r.next == CreateChat ==> r.chats == []
    ensures r.next.SelectChat? ==> |r.chats| > 0 && r.next.chatId == r.chats[0].id && r.next.chatId != id
  {
    if !messagesOk then ChatDeletion([RemoveMessages(id)], chats, KeepSelection)
    else
      var calls := [RemoveMessages(id), RemoveChat(id)];
      if !chatOk then ChatDeletion(calls, chats, KeepSelection)
      else
        var remaining := Filter(chats, (c: Chat) => c.id != id);
        var next :=
          if selected != Some(id) then KeepSelection
          else if |remaining| > 0 then SelectChat(remaining[0].id)
          else CreateChat;
        ChatDeletion(calls, remaining, next)
  }

  /** The conversation shown after the deletion is one still in the list:
      a deleted conversation is never left on screen. */
  lemma DeletedChatNotShown(chats: seq<Chat>, selected: Option<string>, id: string)
    requires selected == Some(id)
    ensures var r := DeleteChat(chats, selected, id, true, true);
            && r.next != KeepSelection
            && (r.next.SelectChat? ==> exists i | 0 <= i < |r.chats| :: r.chats[i].id == r.next.chatId)
            && (r.next.SelectChat? ==> exists i | 0 <= i < |chats| :: chats[i] == r.chats[0])
  {
    var r := DeleteChat(chats, selected, id, true, true);
    if r.next.SelectChat? {
      var c := r.chats[0];
      assert c in multiset(r.chats);
      assert multiset(r.chats)[c] == multiset(chats)[c];
      assert c in chats;
    }
  }

  /** `handleNewChat` after `createNewChat`, which answers with the created
      row's id (`None` when it throws). Creation already selects the row it
      returns, whatever its id; the handler then selects the id again when
      it is non-empty. So the created conversation is shown whenever
      creation answered, and a failed creation leaves the selection alone. */
  function AfterNewChat(selected: Option<string>, created: Option<string>): (r: Option<string>)
    ensures created.Some? ==> r == created
    ensures created.None? ==> r == selected
  {
    var shown := if created.Some? then created else selected;
    if created.Some? && created.value != [] then created else shown
  }
}

=== FILE: text.dfy ===
/** String primitives the front-end relies on, stated with JavaScript's
    semantics: `trim`, `includes`, `startsWith`, `length` (UTF-16 code units),
    `toLowerCase` (ASCII letters only), `split('@')[0]` and `Number.toString`. */
module Text {

  /** ECMAScript WhiteSpace and LineTerminator code points: exactly the
      characters `String.prototype.trim` strips (the space separators are
      those of Unicode category Zs). */
  predicate IsSpace(c: char) {
    || c == '\t' || c == '\n' || c == '\U{000B}' || c == '\U{000C}' || c == '\r'
    || c == ' ' || c == '\U{00A0}' || c == '\U{1680}'
    || ('\U{2000}' <= c <= '\U{200A}')
    || c == '\U{2028}' || c == '\U{2029}' || c == '\U{202F}' || c == '\U{205F}'
    || c == '\U{3000}' || c == '\U{FEFF}'
  }

  /** Nothing but whitespace, or nothing at all. */
  predicate Blank(s: string) {
    forall k | 0 <= k < |s| :: IsSpace(s[k])
  }

  /** `needle` occurs in `hay` starting at index `i`. */
  ghost predicate OccursAt(hay: string, needle: string, i: int) {
    0 <= i && i + |needle| <= |hay| && hay[i..i + |needle|] == needle
  }

  predicate StartsWith(s: string, prefix: string) {
    |prefix| <= |s| && s[..|prefix|] == prefix
  }

  /** Leading whitespace removed. */
  function TrimStart(s: string): (r: string)
    ensures |r| <= |s| && r == s[|s| - |r|..]
    ensures Blank(s[..|s| - |r|])
    ensures |r| > 0 ==> !IsSpace(r[0])
  {
    if |s| > 0 && IsSpace(s[0]) then
      var r := TrimStart(s[1..]);
      assert s[1..][..|s[1..]| - |r|] == s[1..|s| - |r|];
      r
    else
      s
  }

  /** Trailing whitespace removed. */
  function TrimEnd(s: string): (r: string)
    ensures |r| <= |s| && r == s[..|r|]
    ensures Blank(s[|r|..])
    ensures |r| > 0 ==> !IsSpace(r[|r| - 1])
  {
    if |s| > 0 && IsSpace(s[|s| - 1]) then
      var r := TrimEnd(s[..|s| - 1]);
      assert s[..|s| - 1][|r|..] == s[|r|..|s| - 1];
      r
    else
      s
  }

  /** JavaScript's `s.trim()`: the slice of `s` left after stripping
      whitespace from both ends. It is empty exactly when `s` is blank. */
  function Trim(s: string): (r: string)
    ensures exists i :: OccursAt(s, r, i) && Blank(s[..i]) && Blank(s[i + |r|..])
    ensures r == [] <==> Blank(s)
    ensures |r| > 0 ==> !IsSpace(r[0]) && !IsSpace(r[|r| - 1])
  {
    var a := TrimStart(s);
    var r := TrimEnd(a);
    TrimShape(s, a, r);
    r
  }

  /** The two halves of `Trim` compose into one slice with blank margins. */
  lemma TrimShape(s: string, a: string, r: string)
    requires |a| <= |s| && a == s[|s| - |a|..] && Blank(s[..|s| - |a|])
    requires |a| > 0 ==> !IsSpace(a[0])
    requires |r| <= |a| && r == a[..|r|] && Blank(a[|r|..])
    requires |r| > 0 ==> !IsSpace(r[|r| - 1])
    ensures exists i :: OccursAt(s, r, i) && Blank(s[..i]) && Blank(s[i + |r|..])
    ensures r == [] <==> Blank(s)
    ensures |r| > 0 ==> !IsSpace(r[0])
  {
  }

  /** Trimming a trimmed string changes nothing. */
  lemma TrimIdempotent(s: string)
    ensures Trim(Trim(s)) == Trim(s)
  {
  }

  /** JavaScript's `hay.includes(needle)`. */
  function Contains(hay: string, needle: string): (r: bool)
    ensures r <==> exists i :: OccursAt(hay, needle, i)
    decreases |hay|
  {
    if StartsWith(hay, needle) then
      assert OccursAt(hay, needle, 0);
      true
    else if |hay| == 0 then
      assert forall i :: !OccursAt(hay, needle, i);
      false
    else
      var r := Contains(hay[1..], needle);
      ShiftOccurrence(hay, needle);
      r
  }

  /** An occurrence in the tail is an occurrence one further in the whole. */
  lemma ShiftOccurrence(hay: string, needle: string)
    requires |hay| > 0 && !StartsWith(hay, needle)
    ensures (exists i :: OccursAt(hay, needle, i)) <==> (exists j :: OccursAt(hay[1..], needle, j))
  {
    if exists i :: OccursAt(hay, needle, i) {
      var i :| OccursAt(hay, needle, i);
      assert i != 0;
      assert hay[1..][i - 1..i - 1 + |needle|] == hay[i..i + |needle|];
      assert OccursAt(hay[1..], needle, i - 1);
    }
    if exists j :: OccursAt(hay[1..], needle, j) {
      var j :| OccursAt(hay[1..], needle, j);
      assert hay[1..][j..j + |needle|] == hay[j + 1..j + 1 + |needle|];
      assert OccursAt(hay, needle, j + 1);
    }
  }

  /** The empty string is included in every string. */
  lemma ContainsEmpty(hay: string)
    ensures Contains(hay, [])
  {
  }

  /** `toLowerCase`, restricted to the ASCII letters A-Z. */
  function LowerChar(c: char): (r: char)
    ensures 'A' <= c <= 'Z' ==> 'a' <= r <= 'z' && r as int == c as int + 32
    ensures !('A' <= c <= 'Z') ==> r == c
  {
    if 'A' <= c <= 'Z' then (c as int + 32) as char else c
  }

  function Lower(s: string): (r: string)
    ensures |r| == |s|
    ensures forall k | 0 <= k < |s| :: r[k] == LowerChar(s[k])
  {
    if |s| == 0 then [] else [LowerChar(s[0])] + Lower(s[1..])
  }

  /** Case-insensitive `includes`, as the search boxes use it. */
  predicate ContainsIgnoringCase(hay: string, query: string) {
    Contains(Lower(hay), Lower(query))
  }

  /** Number of UTF-16 code units in `s`: JavaScript's `s.length`. A
      character outside the Basic Multilingual Plane takes two. */
  function Utf16Length(s: string): (n: nat)
    ensures |s| <= n <= 2 * |s|
  {
    if |s| == 0 then 0
    else (if s[0] as int > 0xFFFF then 2 else 1) + Utf16Length(s[1..])
  }

  /** `s.split(sep)[0]`: everything before the first `sep`, or all of `s`. */
  function Before(s: string, sep: char): (r: string)
    ensures |r| <= |s| && r == s[..|r|]
    ensures sep !in r
    ensures |r| < |s| ==> s[|r|] == sep
  {
    if |s| == 0 || s[0] == sep then []
    else [s[0]] + Before(s[1..], sep)
  }

  predicate IsDigit(c: char) {
    '0' <= c <= '9'
  }

  /** `n.toString()` for a non-negative integer: its decimal digits. */
  function DecimalString(n: nat): (r: string)
    ensures |r| > 0
    ensures forall k | 0 <= k < |r| :: IsDigit(r[k])
  {
    var d := ['0', '1', '2', '3', '4', '5', '6', '7', '8', '9'][n % 10];
    if n < 10 then [d] else DecimalString(n / 10) + [d]
  }

  /** Reading the digits back gives the number: distinct instants give distinct ids. */
  function DigitsValue(s: string): int
  {
    if |s| == 0 then 0 else DigitsValue(s[..|s| - 1]) * 10 + (s[|s| - 1] as int - '0' as int)
  }

  lemma {:induction false} DecimalRoundTrip(n: nat)
    ensures DigitsValue(DecimalString(n)) == n
  {
    var r := DecimalString(n);
    if n >= 10 {
      DecimalRoundTrip(n / 10);
      assert r[..|r| - 1] == DecimalString(n / 10);
    }
  }

  lemma DecimalInjective(m: nat, n: nat)
    requires m != n
    ensures DecimalString(m) != DecimalString(n)
  {
    DecimalRoundTrip(m);
    DecimalRoundTrip(n);
  }
}

=== FILE: wrappers.dfy ===
/** Wrappers used across the model: `Option` for the
    values JavaScript leaves `null` or `undefined`, `Result` for operations
    that throw. */
module Wrappers {

  datatype Option<+T> = None | Some(value: T) {

    /** The wrapped value, or `default` when there is none (JavaScript's `?? default`). */
    function GetOr(default: T): T {
      match this
      case Some(v) => v
      case None => default
    }
  }

  datatype Result<+R, +E> = Ok(value: R) | Err(error: E)
}
